=== FILE: README.md ===
# Camera slots, the creeping monster and the two flashlights

A Dafny model of the gameplay core of a small first-person horror game built on Unity. The player sits at a desk and does three things:

- moves the camera between fixed slots with the number keys;
- holds a flashlight whose battery drains;
- keeps watch on a monster that creeps closer whenever it is ignored.

Every per-frame `Update` of the scripts becomes a pure step function over an immutable state record. The engine's contributions arrive as inputs:

- key presses, decoded into booleans or a list of slot requests;
- the time and frame duration;
- the random roll;
- the results of viewport projection and raycasts;
- the smoothed camera pose.

Frame-sequence functions (`Run`) iterate a step over a list of frames, and lemmas about them state what holds over any number of frames.

Modules:

- `Space`, `Maybe` (`common.dfy`): poses as plain records and an option type.
- `CameraSlots` (`camera_slots.dfy`): both slot movers.
  - `CameraMover` uses a fixed five-slot adjacency table; `CameraMoverFree` may jump to any slot of its slot array.
  - The movers differ only in which moves they permit, so one model serves both, selected by a `Layout`.
  - Modelled: the one-second cooldown, the key-order processing of a frame's requests, and the snap-and-stop rule that ends a move.
- `AdvanceOnIgnore` (`advance_on_ignore.dfy`): the ignore-and-advance monster.
  - The frame decision: repelled when lit, frozen when watched, advancing when ignored for `timeToCheck` seconds.
  - The nine-point sight test, and the flashlight beam test.
- `Battery` (`battery.dfy`): drain floored at zero, and clamping into 0..100.
- `FlashlightController` (`flashlight_controller.dfy`): the carried flashlight.
  - Picking up and putting down at slot 0, switching on and off.
  - A per-night drain rate of 0.3 + 0.1·(night − 1) percent per second.
  - Switching itself off when the battery runs out.
- `PickupAndMonster` (`pickup_and_monster.dfy`): the pickup-integrated flashlight and the spawning monster.
  - A flat drain, plus extra drain while the beam is on the monster.
  - The spawn roll at start-up and at every cycle.
  - The appear timer.

## Model

| member | source | states |
|---|---|---|
| CameraSlots.CanMove | Assets/NewMonoBehaviourScript.cs:59-71 | a move is allowed exactly for the eight pairs of the five-slot table; any other origin, including an out-of-range one, allows nothing |
| CameraSlots.CanMoveShape | Assets/NewMonoBehaviourScript.cs:62-70 | every allowed move can be travelled back, no slot leads to itself, and both ends are among slots 0..4 |
| CameraSlots.Init | Assets/NewMonoBehaviourScript5.cs:15-19 | the camera starts at slot 0, not moving, with the "never moved" time of -999 on record, and that slot is in range for any layout with a slot |
| CameraSlots.TryMoveTo | Assets/NewMonoBehaviourScript.cs:47-57 | a request changes the camera exactly when a full second has passed since the last accepted move and the layout permits the move; it then targets that slot, starts moving and records the time, and the slot stays in range |
| CameraSlots.FreeFirstMoveAccepted | Assets/NewMonoBehaviourScript5.cs:51-62 | with the "never moved" time of -999, the free mover's first in-range request is accepted, even for the current slot |
| CameraSlots.CooldownAfterMove | Assets/NewMonoBehaviourScript.cs:49 | after an accepted move, every request within the next second is ignored |
| CameraSlots.RequestAll | Assets/NewMonoBehaviourScript.cs:38-42 | processing a frame's key requests either leaves the camera untouched or leaves it moving with the move time set to now, and keeps the slot in range |
| CameraSlots.CoolingDownIgnoresFrame | Assets/NewMonoBehaviourScript.cs:49 | while cooling down, no key request of a frame has any effect |
| CameraSlots.FirstAccepted | Assets/NewMonoBehaviourScript.cs:38-42 | the position of the first acceptable request of a frame: all earlier requests are unacceptable, and it is acceptable when it exists |
| CameraSlots.FirstAcceptedRequestWins | Assets/NewMonoBehaviourScript.cs:35-45 | with keys tried in order 1..5, only the first acceptable request takes effect, because it starts the cooldown for the rest |
| CameraSlots.PerformMoveAndLook | Assets/NewMonoBehaviourScript.cs:73-103 | an unassigned slot leaves everything as it is; a close enough camera (under 0.05 units and 1 degree) snaps onto the slot's pose and stops; otherwise it takes the smoothed pose; slot and move time never change |
| CameraSlots.Update | Assets/NewMonoBehaviourScript5.cs:35-49 | the key requests are handled before travel: the first acceptable request of the frame sets the slot and the move time to now; with none, slot and move time are kept and a camera at rest is left untouched; a camera moving after the requests takes this frame's smoothed pose and keeps moving, or snaps onto the goal and stops when close enough, and stays put and keeps moving while its slot is unassigned; the slot stays in range |
| CameraSlots.SlotStaysInRange | Assets/NewMonoBehaviourScript.cs:15-57 | over any sequence of frames the slot index stays within the layout's slots |
| AdvanceOnIgnore.Start | Assets/NewMonoBehaviourScript2.cs:18-28 | the monster starts at its start point when one is set, with no advance points passed and the ignore timer started |
| AdvanceOnIgnore.Advance | Assets/NewMonoBehaviourScript2.cs:114-122 | with a point left, the monster moves onto the next advance point and the index grows by one; at the last point nothing changes |
| AdvanceOnIgnore.ResetToStart | Assets/NewMonoBehaviourScript2.cs:124-134 | the index returns to 0, the ignore timer restarts, and the monster stands at the start point when one is set |
| AdvanceOnIgnore.Decide | Assets/NewMonoBehaviourScript2.cs:30-55 | the monster is repelled exactly when an enabled flashlight lights it; otherwise frozen exactly when watched; otherwise it advances exactly when ignored for timeToCheck |
| AdvanceOnIgnore.Update | Assets/NewMonoBehaviourScript2.cs:30-55 | each of the four outcomes: reset and timer restart, timer restart only, one advance with timer restart, nothing; the index stays in range |
| AdvanceOnIgnore.IndexMovesOnlyForAReason | Assets/NewMonoBehaviourScript2.cs:36-54 | the index only drops under the flashlight, and only rises when the monster was neither lit nor watched for timeToCheck |
| AdvanceOnIgnore.IgnoredMonsterAdvances | Assets/NewMonoBehaviourScript2.cs:49-54 | k ignored frames, each timeToCheck apart, move the monster k points forward, capped at the last point |
| AdvanceOnIgnore.IndexStaysInRange | Assets/NewMonoBehaviourScript2.cs:114-121 | over any frames the advance index stays between 0 and the number of advance points |
| AdvanceOnIgnore.NonSpotLightNeverRepels | Assets/NewMonoBehaviourScript2.cs:33-39 | feeding the beam test into the frame decision: a flashlight that is not a spot light never sends the monster back, so the index never drops |
| AdvanceOnIgnore.CheckPoints | Assets/NewMonoBehaviourScript2.cs:61-75 | the sight test samples nine points: the bounds' centre first, then every one of the eight corners |
| AdvanceOnIgnore.CameraLookingAtMonster | Assets/NewMonoBehaviourScript2.cs:57-97 | never seen without a collider; otherwise seen exactly when some sample point lies strictly inside the view, in front of the camera, with the sight ray hitting the monster first |
| AdvanceOnIgnore.FlashlightHittingMonster | Assets/NewMonoBehaviourScript2.cs:99-112 | never lit without a spot light or without a collider; otherwise lit exactly when the beam ray's first hit is the monster's collider |
| Battery.Drain | Assets/NewMonoBehaviourScript1.cs:132-135 | the charge after use is never negative, is zero exactly when the use exhausts it, otherwise drops by exactly the use, and stays a percentage no larger than before |
| Battery.Clamp | Assets/NewMonoBehaviourScript1.cs:49 | the starting charge is pulled into the range: values inside are kept, values below or above become the nearest bound |
| FlashlightController.Start | Assets/FlashlightController.cs:19-29 | the flashlight starts full, off, not held, and remembers where it started |
| FlashlightController.DrainRate | Assets/FlashlightController.cs:77 | the drain rate is 0.3 percent per second on night 1 and at least that on every later night |
| FlashlightController.DrainRateGrowsEachNight | Assets/FlashlightController.cs:77 | each night drains 0.1 percent per second faster than the one before |
| FlashlightController.TurnOn | Assets/FlashlightController.cs:103-110 | the light goes on exactly when it has a Light reference and charge left; nothing else changes |
| FlashlightController.TurnOff | Assets/FlashlightController.cs:112-119 | the light goes off when it has a Light reference, and nothing changes without one |
| FlashlightController.PickUp | Assets/FlashlightController.cs:88-91 | picking up makes the flashlight held and changes nothing else |
| FlashlightController.PutDown | Assets/FlashlightController.cs:93-101 | a put-down flashlight is not held, is off, is back at its starting pose, and keeps its charge |
| FlashlightController.ResetBattery | Assets/FlashlightController.cs:133-137 | charge back to full and switched off, keeping whether it is held, and keeping the invariant |
| FlashlightController.HandleInput | Assets/FlashlightController.cs:48-71 | the pickup key at camera slot 0 picks up a flashlight that is down, and puts down a held one that is off, back at its start pose; holding changes on no other occasion, and a light that is on is never put down; the toggle key switches a held, off light with a Light and charge on, and an on light off; it switches on on no other occasion; the pose changes only by putting down |
| FlashlightController.HandleBattery | Assets/FlashlightController.cs:73-86 | a light that is on loses the night's rate times the frame's duration; if that empties it, the charge is exactly 0 and the light goes off; otherwise nothing changes |
| FlashlightController.FollowCamera | Assets/FlashlightController.cs:36-45 | a held flashlight takes the pose next to the camera when there is a camera; nothing else changes |
| FlashlightController.Update | Assets/FlashlightController.cs:31-46 | a frame keeps the invariant (charge a percentage; on only while held, with a Light and charge) and never raises the charge; the toggle key switches a held, off light with charge on and it drains at the night's rate in that same frame |
| FlashlightController.RunKeepsInv | Assets/FlashlightController.cs:31-46 | over any frames with a valid night and non-negative durations the invariant holds and the charge never rises |
| FlashlightController.UsedOnOneNight | Assets/FlashlightController.cs:77-78 | within one night, the charge a light uses is that night's rate times the elapsed time, however the time is split into frames |
| FlashlightController.SteadyDrain | Assets/FlashlightController.cs:73-86 | left alone, a light that is on loses exactly the charge its frames use and stays on while charge remains |
| FlashlightController.TenSecondsOnNightOne | Assets/FlashlightController.cs:77-78 | on night 1 a full flashlight left on for ten seconds ends at 97 percent and still on |
| PickupAndMonster.Defaults | Assets/NewMonoBehaviourScript1.cs:13-27 | the inspector defaults (100, 5, 35, 30, 60, 5) make a valid configuration exactly when a Light comes with a pickup object |
| PickupAndMonster.SpawnMonster | Assets/NewMonoBehaviourScript1.cs:174-182 | a spawned monster is present with its full appear time; nothing else changes |
| PickupAndMonster.DespawnMonster | Assets/NewMonoBehaviourScript1.cs:184-188 | a despawned monster is absent and nothing else changes |
| PickupAndMonster.Start | Assets/NewMonoBehaviourScript1.cs:33-58 | start-up clamps the starting charge into the range, leaves the flashlight down and off, fills the cycle timer, and brings the monster in exactly when the roll is at most the spawn chance |
| PickupAndMonster.DrainBattery | Assets/NewMonoBehaviourScript1.cs:132-139 | the charge drops by the amount, floored at zero; at zero the light goes off; while charge remains the light keeps its state; nothing else changes |
| PickupAndMonster.PutDown | Assets/NewMonoBehaviourScript1.cs:108-118 | the flashlight is no longer carried and its light is off; charge and monster are untouched |
| PickupAndMonster.FlashlightOnMonster | Assets/NewMonoBehaviourScript1.cs:190-209 | the beam is on the monster only with an enabled light and a present monster, within half the spot angle, and then exactly when the ray reaches the monster |
| PickupAndMonster.HandlePickup | Assets/NewMonoBehaviourScript1.cs:70-79 | the pickup key at slot 0 swaps carrying and not carrying, and putting down turns the light off; anywhere else nothing changes |
| PickupAndMonster.HandleFlashlight | Assets/NewMonoBehaviourScript1.cs:81-98 | the key switches a carried, off light with charge on and a carried, on light off, and switches on on no other occasion; after the key, a carried enabled light drains the flat rate in that same frame and goes off if that empties it; charge changes only while carried; without a Light nothing changes |
| PickupAndMonster.HandleMonster | Assets/NewMonoBehaviourScript1.cs:142-172 | a present monster leaves when its appear time runs out, otherwise the beam on it drains the extra rate; an absent one's cycle timer restarts when it runs out and the monster comes exactly when the roll is at most the spawn chance; a present monster leaves the cycle timer alone, and the light changes only by going off at empty |
| PickupAndMonster.Update | Assets/NewMonoBehaviourScript1.cs:60-67 | nothing happens without the pickup object or the camera mover; otherwise a frame keeps the invariant, never raises the charge, and changes carrying only on the pickup key at slot 0; a present monster's appear timer falls by the frame's duration, and it leaves in the frame that runs the timer out; with no monster present, the light key and flat drain apply after carrying is handled, the cycle timer counts down and restarts at its interval when it runs out, and the monster comes exactly then and when the roll is at most the spawn chance |
| PickupAndMonster.RunKeepsInv | Assets/NewMonoBehaviourScript1.cs:60-67 | over any frames of non-negative duration the invariant holds (a present monster's remaining time never exceeds its appear time, the cycle timer never exceeds its interval) and the charge never rises |
| PickupAndMonster.MonsterStaysWhileTimeLeft | Assets/NewMonoBehaviourScript1.cs:144-157 | while less time than its appear timer has passed, a present monster stays, with its timer lowered by exactly the time passed |
| PickupAndMonster.MonsterLeavesOnTime | Assets/NewMonoBehaviourScript1.cs:144-150 | a present monster is gone in the frame in which the time passed reaches its appear timer, and present in every frame before |
| PickupAndMonster.DarkRunKeepsCharge | Assets/NewMonoBehaviourScript1.cs:94-97 | without the light key a light that is off stays off, and the charge never drops, whatever the monster does |

## Left out

- Smoothing geometry: `Vector3.Lerp`, `Quaternion.Slerp`, `LookRotation`, distances and angles are engine computations. Each frame's smoothed pose, goal pose, remaining distance and remaining angle are inputs (`Approach`). That a move eventually ends is therefore not modelled.
- CameraSlots.PerformMoveAndLook: an index past the end of the slot array throws in the source. The model instead assumes the restricted mover's slot array has its five entries, or treats a missing entry as unassigned (`slotReady` false).
- CameraSlots.Init: start-up placement onto slot 0's targets is an input pose, not computed.
- Input polling (`Input.GetKeyDown`) is decoded into booleans and, for the movers, a list of requested slot indices in key order.
- `Time.time`, `Time.deltaTime` and `Random.Range` are frame inputs (`now`, `dt`, `roll`).
- Viewport projection and raycasts (`WorldToViewportPoint`, `Physics.Raycast`, `Vector3.Angle`) are oracle inputs. Colliders are compared by an integer identity.
- AdvanceOnIgnore.CameraLookingAtMonster: with a null `playerCamera` the source throws. The model assumes a camera is assigned.
- AdvanceOnIgnore.Advance: a null entry in `advancePoints` throws in the source. The model assumes every entry is assigned.
- FlashlightController: the source finds the camera mover with `FindObjectOfType` and reads its private slot index by reflection. The model takes the slot of an enabled camera mover as an `Option<int>` input.
- FlashlightController: the hold position next to the camera is computed from the camera's axes and an offset. The model takes it as an optional input pose.
- FlashlightController: the current night comes from the night system. `NightSystem` (`night night.cs`) is not part of this model; the night is a frame input.
- PickupAndMonster: re-parenting of the pickup object to the hold point and back, and its saved original position, are not modelled; only `isHolding` is.
- PickupAndMonster: the monster object's active flag (`SetActive`, `activeInHierarchy`) is folded into `monsterActive`, and the spawn-point teleport is not modelled.
- PickupAndMonster.SpawnMonster: without a monster object the source throws before changing any field. The model treats that as a spawn that changes nothing.
- PickupAndMonster: `GetBatteryPercentage` is a plain accessor of `battery`.
- The ritual sequence (`ProcessController` in `da cookie.cs`) and the night system's night table and timers are not part of this model.
- Floating point: all times, charges and rates are exact reals. Single-precision rounding, for instance whether ten seconds on night 1 leaves exactly 97, is not modelled.

=== FILE: advance_on_ignore.dfy ===
/** The ignore-and-advance monster (`AdvanceOnIgnore`). Every frame it asks two
    questions: is the flashlight's beam on it, and can the player's camera see it. A lit
    monster is sent back to its start point, a watched one holds still, and an ignored
    one steps one advance point forward each time its ignore timer runs out. The scene
    queries (viewport projection and raycasts) arrive as oracle results. */
module AdvanceOnIgnore {
  import opened Space
  import opened Maybe

  /** Seconds an ignored monster waits before advancing, unless configured otherwise. */
  const DefaultTimeToCheck: real := 5.0

  /** The monster's inspector settings: its optional start point, the forward points it
      advances through, and how long it waits between advances. */
  datatype Config = Config(startPoint: Option<Pose>, advancePoints: seq<Pose>, timeToCheck: real)

  /** How many advance points the monster has passed, when its ignore timer was last
      restarted, and where it stands. */
  datatype Monster = Monster(advanceIndex: nat, lastCheckTime: real, pose: Pose)

  /** The advance index never runs past the advance points. */
  predicate Valid(cfg: Config, m: Monster)
  {
    m.advanceIndex <= |cfg.advancePoints|
  }

  /** The monster at start-up at time `now`, standing at `pose` unless a start point is set. */
  function Start(cfg: Config, pose: Pose, now: real): (m: Monster)
    ensures Valid(cfg, m) && m.advanceIndex == 0 && m.lastCheckTime == now
    ensures cfg.startPoint.Some? ==> m.pose == cfg.startPoint.value
    ensures cfg.startPoint.None? ==> m.pose == pose
  {
    Monster(0, now, if cfg.startPoint.Some? then cfg.startPoint.value else pose)
  }

  /** Step to the next advance point, if one is left; the timer is not touched. */
  function Advance(cfg: Config, m: Monster): (r: Monster)
    ensures m.advanceIndex < |cfg.advancePoints| ==>
      r.advanceIndex == m.advanceIndex + 1 && r.pose == cfg.advancePoints[m.advanceIndex]
    ensures m.advanceIndex >= |cfg.advancePoints| ==> r == m
    ensures r.lastCheckTime == m.lastCheckTime
    ensures Valid(cfg, m) ==> Valid(cfg, r)
  {
    if m.advanceIndex < |cfg.advancePoints| then
      m.(pose := cfg.advancePoints[m.advanceIndex], advanceIndex := m.advanceIndex + 1)
    else m
  }

  /** Back to the start point (when one is set), with no advance points passed and the
      ignore timer restarted. */
  function ResetToStart(cfg: Config, m: Monster, now: real): (r: Monster)
    ensures r.advanceIndex == 0 && r.lastCheckTime == now && Valid(cfg, r)
    ensures r.pose == (if cfg.startPoint.Some? then cfg.startPoint.value else m.pose)
  {
    Monster(0, now, if cfg.startPoint.Some? then cfg.startPoint.value else m.pose)
  }

  /** The flashlight reference: whether its light is enabled and whether it is a spot light. */
  datatype Light = Light(enabled: bool, isSpot: bool)

  /** Whether the flashlight is assigned and switched on. */
  predicate Shining(flashlight: Option<Light>)
  {
    flashlight.Some? && flashlight.value.enabled
  }

  /** The four outcomes of a frame, in priority order. */
  datatype Decision = Repel | Freeze | AdvanceNow | KeepWaiting

  /** The frame's decision: a shining flashlight that hits the monster wins over being
      looked at, which wins over the ignore timer. */
  function Decide(cfg: Config, m: Monster, now: real, flashlight: Option<Light>, lookedAt: bool, lit: bool): (d: Decision)
    ensures d == Repel <==> Shining(flashlight) && lit
    ensures d == Freeze <==> !(Shining(flashlight) && lit) && lookedAt
    ensures d == AdvanceNow <==>
      !(Shining(flashlight) && lit) && !lookedAt && now - m.lastCheckTime >= cfg.timeToCheck
  {
    if Shining(flashlight) && lit then Repel
    else if lookedAt then Freeze
    else if now - m.lastCheckTime >= cfg.timeToCheck then AdvanceNow
    else KeepWaiting
  }

  /** One frame at time `now`, given the answers of the two detection questions. */
  function Update(cfg: Config, m: Monster, now: real, flashlight: Option<Light>, lookedAt: bool, lit: bool): (r: Monster)
    ensures Shining(flashlight) && lit ==> r == ResetToStart(cfg, m, now)
    ensures !(Shining(flashlight) && lit) && lookedAt ==> r == m.(lastCheckTime := now)
    ensures !(Shining(flashlight) && lit) && !lookedAt && now - m.lastCheckTime >= cfg.timeToCheck ==>
      r == Advance(cfg, m).(lastCheckTime := now)
    ensures !(Shining(flashlight) && lit) && !lookedAt && now - m.lastCheckTime < cfg.timeToCheck ==> r == m
    ensures r.advanceIndex == 0 || r.advanceIndex == m.advanceIndex || r.advanceIndex == m.advanceIndex + 1
    ensures Valid(cfg, m) ==> Valid(cfg, r)
  {
    match Decide(cfg, m, now, flashlight, lookedAt, lit)
    case Repel => ResetToStart(cfg, m, now)
    case Freeze => m.(lastCheckTime := now)
    case AdvanceNow => Advance(cfg, m).(lastCheckTime := now)
    case KeepWaiting => m
  }

  /** The index only ever goes back under the beam, and only goes forward when the
      monster was neither lit nor watched for a whole `timeToCheck`. */
  lemma IndexMovesOnlyForAReason(cfg: Config, m: Monster, now: real, flashlight: Option<Light>, lookedAt: bool, lit: bool)
    ensures Update(cfg, m, now, flashlight, lookedAt, lit).advanceIndex < m.advanceIndex ==>
      Shining(flashlight) && lit
    ensures Update(cfg, m, now, flashlight, lookedAt, lit).advanceIndex > m.advanceIndex ==>
      !Shining(flashlight) || !lit
    ensures Update(cfg, m, now, flashlight, lookedAt, lit).advanceIndex > m.advanceIndex ==>
      !lookedAt && now - m.lastCheckTime >= cfg.timeToCheck
  {
  }

  /** The number of advance points reached after `k` ignored frames, each arriving at
      least `timeToCheck` after the previous one. */
  function StepsAhead(index: nat, k: nat, pointCount: nat): nat
  {
    if index + k <= pointCount then index + k
    else if index <= pointCount then pointCount
    else index
  }

  /** Frames that come a full `timeToCheck` apart, the first a full `timeToCheck` after
      `since`. */
  predicate Spaced(times: seq<real>, since: real, gap: real)
  {
    && (|times| > 0 ==> times[0] - since >= gap)
    && forall i :: 0 < i < |times| ==> times[i] - times[i - 1] >= gap
  }

  /** Ignored frames at the given times (no flashlight hit, not looked at). */
  function RunIgnored(cfg: Config, m: Monster, times: seq<real>): Monster
    decreases |times|
  {
    if |times| == 0 then m
    else RunIgnored(cfg, Update(cfg, m, times[0], None, false, false), times[1..])
  }

  /** While the monster is ignored and frames come a full `timeToCheck` apart, every frame
      moves it one advance point forward until it runs out of points; it never passes
      the last one. */
  lemma {:induction false} IgnoredMonsterAdvances(cfg: Config, m: Monster, times: seq<real>)
    requires Spaced(times, m.lastCheckTime, cfg.timeToCheck)
    ensures RunIgnored(cfg, m, times).advanceIndex == StepsAhead(m.advanceIndex, |times|, |cfg.advancePoints|)
    ensures Valid(cfg, m) ==> Valid(cfg, RunIgnored(cfg, m, times))
    decreases |times|
  {
    if |times| > 0 {
      var next := Update(cfg, m, times[0], None, false, false);
      assert next.lastCheckTime == times[0];
      assert Spaced(times[1..], next.lastCheckTime, cfg.timeToCheck) by {
        forall i | 0 < i < |times[1..]|
          ensures times[1..][i] - times[1..][i - 1] >= cfg.timeToCheck
        {
          assert times[1..][i] == times[i + 1] && times[1..][i - 1] == times[i];
        }
      }
      IgnoredMonsterAdvances(cfg, next, times[1..]);
    }
  }

  /** A frame of the monster: the time, the flashlight reference, and the two detection
      answers. */
  datatype Frame = Frame(now: real, flashlight: Option<Light>, lookedAt: bool, lit: bool)

  function Run(cfg: Config, m: Monster, frames: seq<Frame>): Monster
    decreases |frames|
  {
    if |frames| == 0 then m
    else
      var f := frames[0];
      Run(cfg, Update(cfg, m, f.now, f.flashlight, f.lookedAt, f.lit), frames[1..])
  }

  /** Whatever the frames, the advance index stays between 0 and the number of points. */
  lemma {:induction false} IndexStaysInRange(cfg: Config, m: Monster, frames: seq<Frame>)
    requires Valid(cfg, m)
    ensures Valid(cfg, Run(cfg, m, frames))
    decreases |frames|
  {
    if |frames| > 0 {
      var f := frames[0];
      IndexStaysInRange(cfg, Update(cfg, m, f.now, f.flashlight, f.lookedAt, f.lit), frames[1..]);
    }
  }

  // ---------------- detection ----------------

  /** An axis-aligned bounding box: its centre and its two extreme corners. */
  datatype Bounds = Bounds(center: Vec3, min: Vec3, max: Vec3)

  /** The monster's collider: an identity for raycast hits, and its bounds. */
  datatype Collider = Collider(id: nat, bounds: Bounds)

  /** The corner of `b` that takes the maximum on exactly the axes flagged. */
  function Corner(b: Bounds, maxX: bool, maxY: bool, maxZ: bool): Vec3
  {
    Vec3(if maxX then b.max.x else b.min.x,
         if maxY then b.max.y else b.min.y,
         if maxZ then b.max.z else b.min.z)
  }

  /** The points sampled to decide whether the monster is in sight: the centre first,
      then all eight corners. */
  function CheckPoints(b: Bounds): (points: seq<Vec3>)
    ensures |points| == 9 && points[0] == b.center
    ensures forall maxX: bool, maxY: bool, maxZ: bool :: Corner(b, maxX, maxY, maxZ) in points[1..]
  {
    [b.center,
     b.min,
     b.max,
     Vec3(b.min.x, b.min.y, b.max.z),
     Vec3(b.min.x, b.max.y, b.min.z),
     Vec3(b.max.x, b.min.y, b.min.z),
     Vec3(b.max.x, b.max.y, b.min.z),
     Vec3(b.max.x, b.min.y, b.max.z),
     Vec3(b.min.x, b.max.y, b.max.z)]
  }

  /** A viewport position counts only strictly inside the view and in front of the camera. */
  predicate InViewport(v: Vec3)
  {
    v.z > 0.0 && 0.0 < v.x < 1.0 && 0.0 < v.y < 1.0
  }

  /** Whether sample point `p` proves the monster is seen: `viewport` gives a world point's
      viewport position, `sightRay` the collider first hit by the ray from the camera
      towards a point (within 100 units), if any. */
  predicate ConfirmsSight(monster: Collider, p: Vec3, viewport: Vec3 -> Vec3, sightRay: Vec3 -> Option<nat>)
  {
    InViewport(viewport(p)) && sightRay(p) == Some(monster.id)
  }

  /** Whether the player's camera sees the monster: never without a collider; otherwise
      exactly when one of the nine sample points is inside the view with an unobstructed
      ray to it. */
  method CameraLookingAtMonster(collider: Option<Collider>, viewport: Vec3 -> Vec3, sightRay: Vec3 -> Option<nat>)
    returns (seen: bool)
    ensures seen <==>
              (collider.Some? &&
               exists i :: 0 <= i < 9 && ConfirmsSight(collider.value, CheckPoints(collider.value.bounds)[i], viewport, sightRay))
  {
    if collider.None? {
      return false;
    }
    var monster := collider.value;
    var points := CheckPoints(monster.bounds);
    var i := 0;
    while i < |points|
      invariant 0 <= i <= |points|
      invariant forall j :: 0 <= j < i ==> !ConfirmsSight(monster, points[j], viewport, sightRay)
    {
      var p := points[i];
      if InViewport(viewport(p)) {
        var hit := sightRay(p);
        if hit.Some? && hit.value == monster.id {
          return true;
        }
      }
      i := i + 1;
    }
    return false;
  }

  /** Whether the flashlight's beam hits the monster: never without a spot light or
      without a collider; otherwise exactly when the ray along the beam (within the
      light's range) first hits the monster's collider. `beamRay` is that ray's hit.
      Whether the light is switched on is not part of this test. */
  function FlashlightHittingMonster(flashlight: Option<Light>, collider: Option<Collider>, beamRay: Option<nat>): (lit: bool)
    ensures flashlight.None? || !flashlight.value.isSpot ==> !lit
    ensures collider.None? ==> !lit
    ensures flashlight.Some? && flashlight.value.isSpot && collider.Some? ==>
      (lit <==> beamRay == Some(collider.value.id))
  {
    if flashlight.None? || !flashlight.value.isSpot then false
    else match beamRay
      case Some(hit) => collider.Some? && hit == collider.value.id
      case None => false
  }

  /** The beam test feeding the frame decision: a flashlight that is not a spot light never
      lights the monster, so it never sends the monster back, whatever else happens. */
  lemma NonSpotLightNeverRepels(cfg: Config, m: Monster, now: real, flashlight: Option<Light>,
                                collider: Option<Collider>, beamRay: Option<nat>, lookedAt: bool)
    requires flashlight.Some? && !flashlight.value.isSpot
    ensures var lit := FlashlightHittingMonster(flashlight, collider, beamRay);
      Decide(cfg, m, now, flashlight, lookedAt, lit) != Repel &&
      Update(cfg, m, now, flashlight, lookedAt, lit).advanceIndex >= m.advanceIndex
  {
  }
}

=== FILE: battery.dfy ===
/** The battery arithmetic both flashlight controllers share: charge is a percentage,
    drains never take it below zero, and a starting value is clamped into range. */
module Battery {

  /** A full battery. */
  const Full: real := 100.0

  /** Whether `charge` is a percentage. */
  predicate InRange(charge: real)
  {
    0.0 <= charge <= Full
  }

  /** The charge left after using up `amount`, floored at empty. */
  function Drain(charge: real, amount: real): (left: real)
    ensures left >= 0.0
    ensures left == 0.0 <==> charge - amount <= 0.0
    ensures left > 0.0 ==> left == charge - amount
    ensures InRange(charge) && amount >= 0.0 ==> InRange(left) && left <= charge
  {
    if charge - amount > 0.0 then charge - amount else 0.0
  }

  /** `x` pulled into `[lo, hi]`. */
  function Clamp(x: real, lo: real, hi: real): (c: real)
    requires lo <= hi
    ensures lo <= c <= hi
    ensures lo <= x <= hi ==> c == x
    ensures x < lo ==> c == lo
    ensures x > hi ==> c == hi
  {
    if x < lo then lo else if x > hi then hi else x
  }

  /** A rate times a duration, both non-negative, is a non-negative amount to drain. */
  lemma ProductNonNegative(rate: real, dt: real)
    ensures rate >= 0.0 && dt >= 0.0 ==> rate * dt >= 0.0
  {
  }
}

=== FILE: camera_slots.dfy ===
/** Camera slot navigation. `CameraMover` moves between five fixed slots along a fixed
    adjacency table; `CameraMoverFree` may jump to any slot of its slot array. Both accept
    at most one move per second and finish a move by snapping exactly onto the slot once
    the camera is close enough. The smoothing itself (Lerp/Slerp) is engine geometry: each
    frame's smoothed pose, goal pose and remaining distance and angle arrive as an
    `Approach` record. */
module CameraSlots {
  import opened Space

  /** Seconds that must pass between two accepted moves. */
  const CooldownTime: real := 1.0

  /** `lastMoveTime` before any move has been accepted. */
  const NeverMoved: real := -999.0

  /** A move stops once the camera is closer than this to the slot's position ... */
  const SnapDistance: real := 0.05

  /** ... and less than this many degrees away from the slot's look rotation. */
  const SnapAngle: real := 1.0

  /** Number of slots of the restricted mover. */
  const RestrictedSlotCount: nat := 5

  /** Which slots may follow which: the restricted five-slot table, or every slot of an
      array of `slotCount` slots. */
  datatype Layout = Restricted | FullyConnected(slotCount: nat)

  function SlotCount(layout: Layout): nat
  {
    match layout
    case Restricted => RestrictedSlotCount
    case FullyConnected(n) => n
  }

  /** The camera starts at slot 0, so a layout needs at least one slot. */
  predicate ValidLayout(layout: Layout)
  {
    SlotCount(layout) > 0
  }

  /** The edges of the restricted table as (from, to) pairs. */
  const RestrictedEdges: set<(int, int)> :=
    {(0, 1), (0, 2), (0, 4), (1, 0), (2, 0), (2, 3), (3, 2), (4, 0)}

  /** The restricted mover's transition table. */
  function CanMove(from: int, to: int): (allowed: bool)
    ensures allowed <==> (from, to) in RestrictedEdges
  {
    match from
    case 0 => to == 1 || to == 2 || to == 4
    case 1 => to == 0
    case 2 => to == 0 || to == 3
    case 3 => to == 2
    case 4 => to == 0
    case _ => false
  }

  /** Every edge of the restricted table can be travelled back, no slot leads to itself,
      and both ends of an edge are among the five slots. */
  lemma CanMoveShape(from: int, to: int)
    ensures CanMove(from, to) ==> CanMove(to, from)
    ensures CanMove(from, to) ==> from != to
    ensures CanMove(from, to) ==> 0 <= from < RestrictedSlotCount && 0 <= to < RestrictedSlotCount
  {
  }

  /** Whether `layout` lets the camera go from slot `from` to slot `to`. */
  predicate Permits(layout: Layout, from: int, to: int)
  {
    match layout
    case Restricted => CanMove(from, to)
    case FullyConnected(n) => 0 <= to < n
  }

  /** One camera: its slot, whether it is still travelling, when its last move was
      accepted, and where its transform currently is. */
  datatype CameraState = CameraState(currentIndex: int, isMoving: bool, lastMoveTime: real, pose: Pose)

  predicate ValidState(layout: Layout, s: CameraState)
  {
    0 <= s.currentIndex < SlotCount(layout)
  }

  /** The camera at start-up: slot 0, at rest, with no move on record. `pose` is where
      start-up placed the transform (slot 0's pose when that slot is configured). */
  function Init(layout: Layout, pose: Pose): (s: CameraState)
    ensures ValidLayout(layout) ==> ValidState(layout, s)
    ensures s.currentIndex == 0 && !s.isMoving && s.pose == pose
    ensures s.lastMoveTime == NeverMoved
  {
    CameraState(0, false, NeverMoved, pose)
  }

  /** Whether a request for `target` at time `now` is accepted. */
  predicate Accepts(layout: Layout, s: CameraState, target: int, now: real)
  {
    now - s.lastMoveTime >= CooldownTime && Permits(layout, s.currentIndex, target)
  }

  /** A request to move to `target` (a number key). A request changes the camera exactly
      when the cooldown has run out and the layout permits the move; a change points the
      camera at the target, starts the travel and records the time. */
  function TryMoveTo(layout: Layout, s: CameraState, target: int, now: real): (r: CameraState)
    ensures r != s <==> now - s.lastMoveTime >= CooldownTime && Permits(layout, s.currentIndex, target)
    ensures r != s ==> r.currentIndex == target && r.isMoving && r.lastMoveTime == now && r.pose == s.pose
    ensures ValidState(layout, s) ==> ValidState(layout, r)
  {
    if now - s.lastMoveTime < CooldownTime then s
    else if Permits(layout, s.currentIndex, target) then
      s.(currentIndex := target, isMoving := true, lastMoveTime := now)
    else s
  }

  /** After an accepted move, every request in the following second changes nothing. */
  lemma CooldownAfterMove(layout: Layout, s: CameraState, target: int, now: real, other: int, later: real)
    requires Accepts(layout, s, target, now)
    requires now <= later < now + CooldownTime
    ensures TryMoveTo(layout, TryMoveTo(layout, s, target, now), other, later) == TryMoveTo(layout, s, target, now)
  {
  }

  /** In the free layout the first request for an in-range slot at any time from -998 on
      is accepted, whatever slot it names, the current one included. */
  lemma FreeFirstMoveAccepted(n: nat, pose: Pose, target: int, now: real)
    requires 0 <= target < n
    requires now >= NeverMoved + CooldownTime
    ensures TryMoveTo(FullyConnected(n), Init(FullyConnected(n), pose), target, now).currentIndex == target
    ensures TryMoveTo(FullyConnected(n), Init(FullyConnected(n), pose), target, now).isMoving
  {
  }

  /** The requests of one frame, in key order (slot 0's key first). */
  function RequestAll(layout: Layout, s: CameraState, targets: seq<int>, now: real): (r: CameraState)
    ensures ValidState(layout, s) ==> ValidState(layout, r)
    ensures r == s || (r.lastMoveTime == now && r.isMoving)
    decreases |targets|
  {
    if |targets| == 0 then s
    else RequestAll(layout, TryMoveTo(layout, s, targets[0], now), targets[1..], now)
  }

  /** While the camera is cooling down, a whole frame of requests changes nothing. */
  lemma {:induction false} CoolingDownIgnoresFrame(layout: Layout, s: CameraState, targets: seq<int>, now: real)
    requires now - s.lastMoveTime < CooldownTime
    ensures RequestAll(layout, s, targets, now) == s
    decreases |targets|
  {
    if |targets| > 0 {
      CoolingDownIgnoresFrame(layout, s, targets[1..], now);
    }
  }

  /** The position of the first acceptable request of a frame, or the number of requests
      when none is acceptable. */
  function FirstAccepted(layout: Layout, s: CameraState, targets: seq<int>, now: real): (k: nat)
    ensures k <= |targets|
    ensures k < |targets| ==> Accepts(layout, s, targets[k], now)
    ensures forall j :: 0 <= j < k ==> !Accepts(layout, s, targets[j], now)
    decreases |targets|
  {
    if |targets| == 0 then 0
    else if Accepts(layout, s, targets[0], now) then 0
    else 1 + FirstAccepted(layout, s, targets[1..], now)
  }

  /** Within one frame at most one request takes effect: the first acceptable one; when
      none is acceptable the camera is unchanged. */
  lemma {:induction false} FirstAcceptedRequestWins(layout: Layout, s: CameraState, targets: seq<int>, now: real)
    ensures var k := FirstAccepted(layout, s, targets, now);
      RequestAll(layout, s, targets, now) == if k < |targets| then TryMoveTo(layout, s, targets[k], now) else s
    decreases |targets|
  {
    if |targets| > 0 {
      if Accepts(layout, s, targets[0], now) {
        CoolingDownIgnoresFrame(layout, TryMoveTo(layout, s, targets[0], now), targets[1..], now);
      } else {
        FirstAcceptedRequestWins(layout, s, targets[1..], now);
      }
    }
  }

  /** One frame of the engine's smoothing towards the current slot, as measured by it:
      `slotReady` says the slot entry and both of its targets are assigned, `next` is the
      pose after this frame's smoothing, `goal` the slot's position with the rotation
      that looks at the slot's look target, and `distance` and `angle` how far `next`
      still is from `goal`. */
  datatype Approach = Approach(slotReady: bool, next: Pose, goal: Pose, distance: real, angle: real)

  /** Whether the camera is close enough to stop. */
  predicate CloseEnough(a: Approach)
  {
    a.distance < SnapDistance && a.angle < SnapAngle
  }

  /** One frame of travel. Nothing happens for an unassigned slot; otherwise the camera
      takes the smoothed pose, or, once close enough, snaps onto the goal and stops. The
      slot and the time of the last move never change while travelling. */
  function PerformMoveAndLook(s: CameraState, a: Approach): (r: CameraState)
    ensures r.currentIndex == s.currentIndex && r.lastMoveTime == s.lastMoveTime
    ensures !a.slotReady ==> r == s
    ensures a.slotReady && CloseEnough(a) ==> r.pose == a.goal && !r.isMoving
    ensures r.isMoving != s.isMoving ==> a.slotReady && CloseEnough(a)
    ensures a.slotReady && !CloseEnough(a) ==> r.pose == a.next
  {
    if !a.slotReady then s
    else if CloseEnough(a) then s.(pose := a.goal, isMoving := false)
    else s.(pose := a.next)
  }

  /** One frame of input and travel at time `now`. */
  datatype Frame = Frame(targets: seq<int>, now: real, approach: Approach)

  /** A whole frame: the number-key requests in order, then one travel step if the
      camera is moving. */
  function Update(layout: Layout, s: CameraState, f: Frame): (r: CameraState)
    ensures ValidState(layout, s) ==> ValidState(layout, r)
    ensures r.lastMoveTime == s.lastMoveTime || r.lastMoveTime == f.now
    ensures !s.isMoving && r.isMoving ==> r.lastMoveTime == f.now
    ensures var k := FirstAccepted(layout, s, f.targets, f.now);
      k < |f.targets| ==> r.currentIndex == f.targets[k] && r.lastMoveTime == f.now
    ensures FirstAccepted(layout, s, f.targets, f.now) == |f.targets| ==>
      r.currentIndex == s.currentIndex && r.lastMoveTime == s.lastMoveTime
    ensures !s.isMoving && FirstAccepted(layout, s, f.targets, f.now) == |f.targets| ==> r == s
    ensures (s.isMoving || FirstAccepted(layout, s, f.targets, f.now) < |f.targets|) && f.approach.slotReady ==>
      r.pose == (if CloseEnough(f.approach) then f.approach.goal else f.approach.next)
    ensures (s.isMoving || FirstAccepted(layout, s, f.targets, f.now) < |f.targets|) ==>
      (r.isMoving <==> !(f.approach.slotReady && CloseEnough(f.approach)))
    ensures (s.isMoving || FirstAccepted(layout, s, f.targets, f.now) < |f.targets|) && !f.approach.slotReady ==>
      r.pose == s.pose
  {
    FirstAcceptedRequestWins(layout, s, f.targets, f.now);
    var requested := RequestAll(layout, s, f.targets, f.now);
    if requested.isMoving then PerformMoveAndLook(requested, f.approach) else requested
  }

  function Run(layout: Layout, s: CameraState, frames: seq<Frame>): CameraState
    decreases |frames|
  {
    if |frames| == 0 then s else Run(layout, Update(layout, s, frames[0]), frames[1..])
  }

  /** The camera never leaves its slot range: it starts at slot 0 and only ever takes
      slots its layout permits. */
  lemma {:induction false} SlotStaysInRange(layout: Layout, s: CameraState, frames: seq<Frame>)
    requires ValidState(layout, s)
    ensures ValidState(layout, Run(layout, s, frames))
    decreases |frames|
  {
    if |frames| > 0 {
      SlotStaysInRange(layout, Update(layout, s, frames[0]), frames[1..]);
    }
  }
}

=== FILE: common.dfy ===
/** World-space values the controllers store but never compute with: positions and
    rotations are produced by the engine's smoothing and placement code, which is
    outside this model, and are only copied from one transform to another. */
module Space {

  /** A point in world space. */
  datatype Vec3 = Vec3(x: real, y: real, z: real)

  /** A rotation, as the four components of a quaternion. */
  datatype Quat = Quat(w: real, x: real, y: real, z: real)

  /** The position and rotation of a transform. */
  datatype Pose = Pose(position: Vec3, rotation: Quat)
}

/** A reference that may be missing (an unassigned inspector field, a raycast with no hit). */
module Maybe {

  datatype Option<+T> = None | Some(value: T)
}

=== FILE: flashlight_controller.dfy ===
/** The carried flashlight (`FlashlightController`). At camera slot 0 the player can pick it
    up, or put it down while it is off; while it is held it can be switched on (only with
    charge left) and off. While on it drains faster each night, and at empty it switches
    itself off. The current night and the camera's slot are inputs. */
module FlashlightController {
  import opened Space
  import opened Maybe
  import Battery

  /** The flashlight: whether its Light reference is assigned, whether it is held and on,
      its charge, where it is, and where it started. */
  datatype Flashlight = Flashlight(
    hasLight: bool, isHeld: bool, isOn: bool, battery: real, pose: Pose, startPose: Pose)

  /** What must hold between frames: the charge is a percentage, and a light that is on is
      held, has a Light to drive, and has charge left. */
  predicate Inv(f: Flashlight)
  {
    && Battery.InRange(f.battery)
    && (f.isOn ==> f.isHeld && f.hasLight && f.battery > 0.0)
  }

  /** The flashlight at start-up where it was placed: off, not held, full. */
  function Start(hasLight: bool, pose: Pose): (f: Flashlight)
    ensures Inv(f) && !f.isOn && !f.isHeld && f.battery == Battery.Full
    ensures f.pose == pose && f.startPose == pose
  {
    ResetBattery(Flashlight(hasLight, false, false, 0.0, pose, pose))
  }

  /** Charge used per second while on, on night `night`. */
  function DrainRate(night: int): (rate: real)
    ensures night >= 1 ==> rate >= 0.3
    ensures rate == 0.3 + (night - 1) as real / 10.0
  {
    0.3 + (night - 1) as real * 0.1
  }

  /** Each night drains a tenth of a percent per second faster than the one before. */
  lemma DrainRateGrowsEachNight(night: int)
    ensures DrainRate(night + 1) == DrainRate(night) + 0.1
  {
  }

  function TurnOn(f: Flashlight): (r: Flashlight)
    ensures r.isOn <==> f.isOn || (f.hasLight && f.battery > 0.0)
    ensures r.(isOn := f.isOn) == f
  {
    if f.hasLight && f.battery > 0.0 then f.(isOn := true) else f
  }

  /** Switching off needs the Light reference; without it nothing changes. */
  function TurnOff(f: Flashlight): (r: Flashlight)
    ensures f.hasLight ==> !r.isOn
    ensures !f.hasLight ==> r == f
    ensures r.(isOn := f.isOn) == f
  {
    if f.hasLight then f.(isOn := false) else f
  }

  function PickUp(f: Flashlight): (r: Flashlight)
    ensures r.isHeld && r.(isHeld := f.isHeld) == f
  {
    f.(isHeld := true)
  }

  /** Put down, off, back where it started. */
  function PutDown(f: Flashlight): (r: Flashlight)
    ensures !r.isHeld && r.pose == f.startPose
    ensures f.hasLight ==> !r.isOn
    ensures r.battery == f.battery && r.startPose == f.startPose && r.hasLight == f.hasLight
  {
    TurnOff(f.(isHeld := false)).(pose := f.startPose)
  }

  /** Full charge and switched off; whether it is held stays as it was. */
  function ResetBattery(f: Flashlight): (r: Flashlight)
    ensures r.battery == Battery.Full && r.isHeld == f.isHeld && r.pose == f.pose
    ensures f.hasLight || !f.isOn ==> !r.isOn
    ensures Inv(f) ==> Inv(r)
  {
    TurnOff(f.(battery := Battery.Full))
  }

  /** The commands of one frame: the pick-up/drop key, the on/off key, the slot of the
      enabled camera mover (None when there is none), the night, the frame's duration,
      and the held position next to the camera (None when no camera is assigned). */
  datatype Frame = Frame(
    pickupKey: bool, toggleKey: bool, cameraSlot: Option<int>, night: int, dt: real, holdPose: Option<Pose>)

  predicate AtSlotZero(cameraSlot: Option<int>)
  {
    cameraSlot == Some(0)
  }

  /** The two keys, pick-up/drop first. Picking up and putting down happen only at slot 0,
      and a light that is on cannot be put down. Switching on and off happens only while
      held, and switching on only with charge left. */
  function HandleInput(f: Flashlight, frame: Frame): (r: Flashlight)
    ensures r.isHeld != f.isHeld ==> frame.pickupKey && AtSlotZero(frame.cameraSlot)
    ensures frame.pickupKey && AtSlotZero(frame.cameraSlot) && !f.isHeld ==> r.isHeld
    ensures frame.pickupKey && AtSlotZero(frame.cameraSlot) && f.isHeld && !f.isOn ==>
      !r.isHeld && r.pose == f.startPose
    ensures !(frame.pickupKey && AtSlotZero(frame.cameraSlot) && f.isHeld && !f.isOn) ==> r.pose == f.pose
    ensures f.isHeld && !r.isHeld ==> !f.isOn
    ensures !f.isOn && r.isOn ==> frame.toggleKey && r.isHeld && r.battery > 0.0
    ensures r.isHeld && frame.toggleKey && !f.isOn && f.hasLight && f.battery > 0.0 ==> r.isOn
    ensures Inv(f) && f.isOn && frame.toggleKey ==> !r.isOn
    ensures r.battery == f.battery && r.hasLight == f.hasLight && r.startPose == f.startPose
    ensures Inv(f) ==> Inv(r)
  {
    var picked :=
      if frame.pickupKey && AtSlotZero(frame.cameraSlot) then
        (if !f.isHeld then PickUp(f)
         else if !f.isOn then PutDown(f)
         else f)
      else f;
    if picked.isHeld && frame.toggleKey then
      (if !picked.isOn && picked.battery > 0.0 then TurnOn(picked) else TurnOff(picked))
    else picked
  }

  /** The drain of one frame of `dt` seconds on night `night`. While on with charge left,
      the charge falls by the night's rate times `dt`; when that empties it, the charge is
      exactly zero and the light switches off. Nothing else changes. */
  function HandleBattery(f: Flashlight, night: int, dt: real): (r: Flashlight)
    ensures !(f.isOn && f.battery > 0.0) ==> r == f
    ensures f.isOn && f.battery > 0.0 && f.battery - DrainRate(night) * dt > 0.0 ==>
      r == f.(battery := f.battery - DrainRate(night) * dt)
    ensures f.isOn && f.battery > 0.0 && f.battery - DrainRate(night) * dt <= 0.0 ==>
      r.battery == 0.0 && (f.hasLight ==> !r.isOn)
    ensures r.isHeld == f.isHeld && r.pose == f.pose
    ensures Inv(f) && night >= 1 && dt >= 0.0 ==> Inv(r) && r.battery <= f.battery
  {
    if f.isOn && f.battery > 0.0 then
      var drained := f.(battery := Battery.Drain(f.battery, DrainRate(night) * dt));
      if drained.battery <= 0.0 then TurnOff(drained) else drained
    else f
  }

  /** A held flashlight follows the camera, when there is one. */
  function FollowCamera(f: Flashlight, holdPose: Option<Pose>): (r: Flashlight)
    ensures r.(pose := f.pose) == f
    ensures f.isHeld && holdPose.Some? ==> r.pose == holdPose.value
  {
    if f.isHeld && holdPose.Some? then f.(pose := holdPose.value) else f
  }

  /** One frame: keys, then drain, then following the camera. The invariant is kept,
      and nothing but a reset ever raises the charge. */
  function Update(f: Flashlight, frame: Frame): (r: Flashlight)
    ensures Inv(f) && frame.night >= 1 && frame.dt >= 0.0 ==> Inv(r) && r.battery <= f.battery
    ensures r.isHeld != f.isHeld ==> frame.pickupKey && AtSlotZero(frame.cameraSlot)
    ensures f.isHeld && !r.isHeld ==> !f.isOn
    ensures !f.isOn && r.isOn ==> frame.toggleKey && r.isHeld
    ensures f.isHeld && !frame.pickupKey && frame.toggleKey && !f.isOn && f.hasLight && f.battery > 0.0 &&
            f.battery - DrainRate(frame.night) * frame.dt > 0.0 ==>
      r.isOn && r.battery == f.battery - DrainRate(frame.night) * frame.dt
  {
    FollowCamera(HandleBattery(HandleInput(f, frame), frame.night, frame.dt), frame.holdPose)
  }

  function Run(f: Flashlight, frames: seq<Frame>): Flashlight
    decreases |frames|
  {
    if |frames| == 0 then f else Run(Update(f, frames[0]), frames[1..])
  }

  /** Over any frames with a valid night and non-negative durations the invariant holds
      and the charge never rises. */
  lemma {:induction false} RunKeepsInv(f: Flashlight, frames: seq<Frame>)
    requires Inv(f)
    requires forall i :: 0 <= i < |frames| ==> frames[i].night >= 1 && frames[i].dt >= 0.0
    ensures Inv(Run(f, frames)) && Run(f, frames).battery <= f.battery
    decreases |frames|
  {
    if |frames| > 0 {
      RunKeepsInv(Update(f, frames[0]), frames[1..]);
    }
  }

  /** The seconds covered by some frames. */
  function TotalTime(frames: seq<Frame>): real
    decreases |frames|
  {
    if |frames| == 0 then 0.0 else frames[0].dt + TotalTime(frames[1..])
  }

  /** The charge a light that stays on uses over some frames: each frame's night rate
      times the frame's duration. */
  function Used(frames: seq<Frame>): real
    decreases |frames|
  {
    if |frames| == 0 then 0.0 else DrainRate(frames[0].night) * frames[0].dt + Used(frames[1..])
  }

  /** When every frame belongs to the same night, the charge used is that night's rate
      times the time covered. */
  lemma {:induction false} UsedOnOneNight(frames: seq<Frame>, night: int)
    requires forall i :: 0 <= i < |frames| ==> frames[i].night == night
    ensures Used(frames) == DrainRate(night) * TotalTime(frames)
    decreases |frames|
  {
    if |frames| > 0 {
      var rest := frames[1..];
      assert forall i :: 0 <= i < |rest| ==> rest[i].night == night by {
        forall i | 0 <= i < |rest| ensures rest[i].night == night {
          assert rest[i] == frames[i + 1];
        }
      }
      UsedOnOneNight(rest, night);
      UsedStep(frames, night);
      MulDistributes(DrainRate(night), frames[0].dt, TotalTime(rest));
    }
  }

  lemma UsedStep(frames: seq<Frame>, night: int)
    requires |frames| > 0 && frames[0].night == night
    ensures Used(frames) == DrainRate(night) * frames[0].dt + Used(frames[1..])
    ensures TotalTime(frames) == frames[0].dt + TotalTime(frames[1..])
  {
  }

  lemma MulDistributes(k: real, a: real, b: real)
    ensures k * (a + b) == k * a + k * b
  {
  }

  /** Frames with a valid night and a non-negative duration in which no key is pressed. */
  predicate Untouched(frames: seq<Frame>)
  {
    forall i :: 0 <= i < |frames| ==>
      !frames[i].pickupKey && !frames[i].toggleKey && frames[i].night >= 1 && frames[i].dt >= 0.0
  }

  /** One untouched frame of a light that is on takes the night's rate times the frame's
      duration off the charge, and leaves the light on when charge is left. */
  lemma QuietFrame(f: Flashlight, frame: Frame)
    requires Inv(f) && f.isOn
    requires !frame.pickupKey && !frame.toggleKey && frame.night >= 1 && frame.dt >= 0.0
    requires f.battery - DrainRate(frame.night) * frame.dt > 0.0
    ensures Inv(Update(f, frame)) && Update(f, frame).isOn
    ensures Update(f, frame).battery == f.battery - DrainRate(frame.night) * frame.dt
  {
    var input := HandleInput(f, frame);
    assert input == f;
  }

  /** The frames after the first of an untouched run are untouched too. */
  lemma UntouchedTail(frames: seq<Frame>)
    requires |frames| > 0 && Untouched(frames)
    ensures Untouched(frames[1..])
  {
    forall i | 0 <= i < |frames[1..]|
      ensures !frames[1..][i].pickupKey && !frames[1..][i].toggleKey
      ensures frames[1..][i].night >= 1 && frames[1..][i].dt >= 0.0
    {
      assert frames[1..][i] == frames[i + 1];
    }
  }

  /** Untouched frames never give charge back. */
  lemma {:induction false} UsedNonNegative(frames: seq<Frame>)
    requires Untouched(frames)
    ensures Used(frames) >= 0.0
    decreases |frames|
  {
    if |frames| > 0 {
      UntouchedTail(frames);
      UsedNonNegative(frames[1..]);
      Battery.ProductNonNegative(DrainRate(frames[0].night), frames[0].dt);
    }
  }

  /** Left alone, a light that is on loses exactly the charge its frames use, and stays on
      as long as that leaves some charge. */
  lemma {:induction false} SteadyDrain(f: Flashlight, frames: seq<Frame>)
    requires Inv(f) && f.isOn && Untouched(frames)
    requires f.battery - Used(frames) > 0.0
    ensures Run(f, frames).isOn
    ensures Run(f, frames).battery == f.battery - Used(frames)
    decreases |frames|
  {
    if |frames| > 0 {
      var next := FirstQuietFrame(f, frames);
      SteadyDrain(next, frames[1..]);
    }
  }

  /** The first frame of an untouched run: afterwards the light is still on, the rest of
      the run is untouched, and what this frame used plus what the rest will use is what
      the whole run uses. */
  lemma FirstQuietFrame(f: Flashlight, frames: seq<Frame>) returns (next: Flashlight)
    requires Inv(f) && f.isOn && Untouched(frames) && |frames| > 0
    requires f.battery - Used(frames) > 0.0
    ensures Inv(next) && next.isOn && Untouched(frames[1..])
    ensures next.battery - Used(frames[1..]) == f.battery - Used(frames)
    ensures Run(f, frames) == Run(next, frames[1..])
  {
    next := Update(f, frames[0]);
    UntouchedTail(frames);
    UsedNonNegative(frames[1..]);
    QuietFrame(f, frames[0]);
  }

  /** On night 1 a full flashlight left on for ten seconds, however the seconds are split
      into frames, ends at 97 and still on. */
  lemma TenSecondsOnNightOne(f: Flashlight, frames: seq<Frame>)
    requires Inv(f) && f.isOn && f.battery == Battery.Full
    requires Untouched(frames) && TotalTime(frames) == 10.0
    requires forall i :: 0 <= i < |frames| ==> frames[i].night == 1
    ensures Run(f, frames).battery == 97.0 && Run(f, frames).isOn
  {
    UsedOnOneNight(frames, 1);
    SteadyDrain(f, frames);
  }
}

=== FILE: pickup_and_monster.dfy ===
/** The pickup-integrated flashlight and spawning monster (`PickupAndMonsterController`).
    The flashlight drains at a flat rate while held and on, and faster while its beam is
    on the monster. The monster is rolled for at start-up and, while absent, again each
    time the cycle timer runs out; once present it leaves when its appear timer runs out.
    Key presses, the camera slot, the frame time, the random roll and the beam geometry
    are inputs. */
module PickupAndMonster {
  import Battery

  /** The controller's inspector settings: which references are assigned, and the
      battery and monster numbers. */
  datatype Config = Config(
    hasPickup: bool,
    hasLight: bool,
    hasMonster: bool,
    hasCameraMover: bool,
    startingBattery: real,
    drainRatePerSecond: real,
    spawnChance: real,
    appearDuration: real,
    cycleInterval: real,
    flashlightDrainRate: real)

  /** The inspector defaults. */
  function Defaults(hasPickup: bool, hasLight: bool, hasMonster: bool, hasCameraMover: bool): (c: Config)
    ensures ValidConfig(c) <==> (hasLight ==> hasPickup)
  {
    Config(hasPickup, hasLight, hasMonster, hasCameraMover, 100.0, 5.0, 35.0, 30.0, 60.0, 5.0)
  }

  /** The Light is looked up on the pickup object, so there is none without one; the two
      drain rates come from sliders that start at zero. */
  predicate ValidConfig(c: Config)
  {
    && (c.hasLight ==> c.hasPickup)
    && c.drainRatePerSecond >= 0.0
    && c.flashlightDrainRate >= 0.0
  }

  /** The controller's state: the charge, whether the flashlight is carried and its light
      enabled, whether the monster is present, and the two countdowns. */
  datatype State = State(
    battery: real,
    isHolding: bool,
    lightEnabled: bool,
    monsterActive: bool,
    activeTimer: real,
    cycleTimer: real)

  /** What holds between frames: the charge is a percentage; an enabled light is carried,
      exists and has charge; a present monster exists and has at most its appear time
      left; the cycle timer never exceeds the cycle interval. */
  predicate Inv(c: Config, s: State)
  {
    && Battery.InRange(s.battery)
    && (s.lightEnabled ==> s.isHolding && c.hasLight && s.battery > 0.0)
    && (s.monsterActive ==> c.hasMonster && s.activeTimer <= c.appearDuration)
    && s.cycleTimer <= c.cycleInterval
  }

  /** Bring the monster in for its appear time. Without a monster object the spawn fails
      before changing anything. */
  function SpawnMonster(c: Config, s: State): (r: State)
    ensures c.hasMonster ==> r.monsterActive && r.activeTimer == c.appearDuration
    ensures !c.hasMonster ==> r == s
    ensures r.(monsterActive := s.monsterActive, activeTimer := s.activeTimer) == s
  {
    if c.hasMonster then s.(monsterActive := true, activeTimer := c.appearDuration) else s
  }

  function DespawnMonster(s: State): (r: State)
    ensures !r.monsterActive && r.(monsterActive := s.monsterActive) == s
  {
    s.(monsterActive := false)
  }

  /** Start-up with the first roll `roll`: the starting charge clamped to a percentage,
      nothing carried, the light off, the cycle timer full, and the monster present exactly
      when the roll is at most the spawn chance. */
  function Start(c: Config, roll: real): (s: State)
    ensures Battery.InRange(s.battery)
    ensures Battery.InRange(c.startingBattery) ==> s.battery == c.startingBattery
    ensures c.startingBattery < 0.0 ==> s.battery == 0.0
    ensures c.startingBattery > Battery.Full ==> s.battery == Battery.Full
    ensures !s.isHolding && !s.lightEnabled && s.cycleTimer == c.cycleInterval
    ensures s.monsterActive <==> c.hasMonster && roll <= c.spawnChance
    ensures s.monsterActive ==> s.activeTimer == c.appearDuration
    ensures Inv(c, s)
  {
    var s := State(Battery.Clamp(c.startingBattery, 0.0, Battery.Full), false, false, false, 0.0, c.cycleInterval);
    if roll <= c.spawnChance then SpawnMonster(c, s) else s
  }

  /** Use up `amount` of charge, never going below empty; at empty the light goes off. */
  function DrainBattery(c: Config, s: State, amount: real): (r: State)
    ensures r.battery == Battery.Drain(s.battery, amount)
    ensures r.battery <= 0.0 && c.hasLight ==> !r.lightEnabled
    ensures r.lightEnabled ==> s.lightEnabled
    ensures r.battery > 0.0 || !c.hasLight ==> r.lightEnabled == s.lightEnabled
    ensures r.(battery := s.battery, lightEnabled := s.lightEnabled) == s
    ensures Inv(c, s) && amount >= 0.0 ==> Inv(c, r) && r.battery <= s.battery
  {
    var left := Battery.Drain(s.battery, amount);
    s.(battery := left, lightEnabled := if left <= 0.0 && c.hasLight then false else s.lightEnabled)
  }

  /** Put the flashlight back: no longer carried, and its light off. */
  function PutDown(c: Config, s: State): (r: State)
    ensures !r.isHolding && (c.hasLight ==> !r.lightEnabled)
    ensures r.battery == s.battery && r.monsterActive == s.monsterActive
  {
    var off := if c.hasLight then s.(lightEnabled := false) else s;
    off.(isHolding := false)
  }

  /** The beam geometry of a frame: the angle between the light's forward direction and
      the monster, the light's spot angle, and whether the ray towards the monster (50
      units long) first hits the monster. */
  datatype Beam = Beam(angle: real, spotAngle: real, rayHitsMonster: bool)

  /** Whether the flashlight's beam is on the monster: never without an enabled light,
      never without a present monster, never outside half the spot angle; otherwise
      exactly when the ray reaches the monster unblocked. */
  function FlashlightOnMonster(c: Config, s: State, beam: Beam): (on: bool)
    ensures !c.hasLight || !s.lightEnabled ==> !on
    ensures !c.hasMonster || !s.monsterActive ==> !on
    ensures beam.angle > beam.spotAngle / 2.0 ==> !on
    ensures c.hasLight && s.lightEnabled && c.hasMonster && s.monsterActive && beam.angle <= beam.spotAngle / 2.0 ==>
      (on <==> beam.rayHitsMonster)
  {
    if !c.hasLight || !s.lightEnabled then false
    else if !c.hasMonster || !s.monsterActive then false
    else if beam.angle > beam.spotAngle / 2.0 then false
    else beam.rayHitsMonster
  }

  /** The inputs of one frame: the pick-up/drop key, the light key, the camera's slot,
      the frame's duration, the random roll (used only when the cycle timer runs out), and
      the beam geometry. */
  datatype Frame = Frame(pickupKey: bool, toggleKey: bool, cameraIndex: int, dt: real, roll: real, beam: Beam)

  /** The pick-up/drop key acts only at slot 0, and there swaps carrying and not carrying. */
  function HandlePickup(c: Config, s: State, f: Frame): (r: State)
    ensures f.pickupKey && f.cameraIndex == 0 ==> r.isHolding == !s.isHolding
    ensures !(f.pickupKey && f.cameraIndex == 0) ==> r == s
    ensures s.isHolding && !r.isHolding && c.hasLight ==> !r.lightEnabled
    ensures r.battery == s.battery && r.monsterActive == s.monsterActive
    ensures r.activeTimer == s.activeTimer && r.cycleTimer == s.cycleTimer
    ensures Inv(c, s) ==> Inv(c, r)
  {
    if f.pickupKey && f.cameraIndex == 0 then
      (if !s.isHolding then s.(isHolding := true) else PutDown(c, s))
    else s
  }

  /** Whether the light is enabled once the light key of frame `f` has been handled: a
      carried flashlight's key switches an off light with charge on and any other off. */
  predicate LitAfterKey(s: State, f: Frame)
  {
    if s.isHolding && f.toggleKey then !s.lightEnabled && s.battery > 0.0 else s.lightEnabled
  }

  /** The light key acts only while carrying: it switches the light on when it is off and
      has charge, and off otherwise. Then a carried, enabled light drains at the flat rate
      for the frame. */
  function HandleFlashlight(c: Config, s: State, f: Frame): (r: State)
    ensures !s.lightEnabled && r.lightEnabled ==> s.isHolding && f.toggleKey && s.battery > 0.0
    ensures s.isHolding && f.toggleKey && c.hasLight && s.lightEnabled ==> !r.lightEnabled
    ensures !(s.isHolding && f.toggleKey) && !(s.isHolding && c.hasLight && s.lightEnabled) ==> r == s
    ensures s.isHolding && c.hasLight && s.lightEnabled && !f.toggleKey ==>
      r.battery == Battery.Drain(s.battery, c.drainRatePerSecond * f.dt)
    ensures c.hasLight ==>
      r.battery == (if s.isHolding && LitAfterKey(s, f)
                    then Battery.Drain(s.battery, c.drainRatePerSecond * f.dt)
                    else s.battery)
    ensures c.hasLight && s.isHolding ==> (r.lightEnabled <==> LitAfterKey(s, f) && r.battery > 0.0)
    ensures s.isHolding && f.toggleKey && c.hasLight && !s.lightEnabled && s.battery > 0.0 ==>
      (r.battery > 0.0 ==> r.lightEnabled)
    ensures !c.hasLight ==> r == s
    ensures r.battery != s.battery ==> s.isHolding && c.hasLight
    ensures r.isHolding == s.isHolding && r.monsterActive == s.monsterActive
    ensures r.activeTimer == s.activeTimer && r.cycleTimer == s.cycleTimer
    ensures Inv(c, s) && ValidConfig(c) && f.dt >= 0.0 ==> Inv(c, r) && r.battery <= s.battery
  {
    var toggled :=
      if s.isHolding && f.toggleKey && c.hasLight then
        s.(lightEnabled := !s.lightEnabled && s.battery > 0.0)
      else s;
    if toggled.isHolding && c.hasLight && toggled.lightEnabled then
      Battery.ProductNonNegative(c.drainRatePerSecond, f.dt);
      DrainBattery(c, toggled, c.drainRatePerSecond * f.dt)
    else toggled
  }

  /** The monster's countdowns for a frame of `dt` seconds. A present monster's appear
      timer falls by `dt`; when it runs out the monster leaves and nothing is drained,
      otherwise the beam on the monster drains the extra rate. An absent monster's cycle
      timer falls by `dt`; when it runs out it restarts at the cycle interval and the
      monster comes exactly when the roll is at most the spawn chance. */
  function HandleMonster(c: Config, s: State, f: Frame): (r: State)
    ensures s.monsterActive && s.activeTimer - f.dt <= 0.0 ==>
      !r.monsterActive && r.battery == s.battery && r.lightEnabled == s.lightEnabled
    ensures s.monsterActive && s.activeTimer - f.dt > 0.0 ==>
      && r.monsterActive && r.activeTimer == s.activeTimer - f.dt
      && r.battery == (if FlashlightOnMonster(c, s, f.beam)
                       then Battery.Drain(s.battery, c.flashlightDrainRate * f.dt)
                       else s.battery)
    ensures !s.monsterActive && s.cycleTimer - f.dt <= 0.0 ==>
      && r.cycleTimer == c.cycleInterval
      && (r.monsterActive <==> c.hasMonster && f.roll <= c.spawnChance)
      && (r.monsterActive ==> r.activeTimer == c.appearDuration)
      && r.battery == s.battery
    ensures !s.monsterActive && s.cycleTimer - f.dt > 0.0 ==> r == s.(cycleTimer := s.cycleTimer - f.dt)
    ensures s.monsterActive ==> r.cycleTimer == s.cycleTimer
    ensures r.lightEnabled != s.lightEnabled ==> c.hasLight && r.battery <= 0.0 && !r.lightEnabled
    ensures r.isHolding == s.isHolding
    ensures Inv(c, s) && ValidConfig(c) && f.dt >= 0.0 ==> Inv(c, r) && r.battery <= s.battery
  {
    if s.monsterActive then
      var counting := s.(activeTimer := s.activeTimer - f.dt);
      if counting.activeTimer <= 0.0 then DespawnMonster(counting)
      else if FlashlightOnMonster(c, counting, f.beam) then
        Battery.ProductNonNegative(c.flashlightDrainRate, f.dt);
        DrainBattery(c, counting, c.flashlightDrainRate * f.dt)
      else counting
    else
      var counting := s.(cycleTimer := s.cycleTimer - f.dt);
      if counting.cycleTimer <= 0.0 then
        var restarted := counting.(cycleTimer := c.cycleInterval);
        if f.roll <= c.spawnChance then SpawnMonster(c, restarted) else restarted
      else counting
  }

  /** One frame: nothing at all without the pickup object or the camera mover; otherwise
      carrying, then the light, then the monster. */
  function Update(c: Config, s: State, f: Frame): (r: State)
    ensures !c.hasPickup || !c.hasCameraMover ==> r == s
    ensures Inv(c, s) && ValidConfig(c) && f.dt >= 0.0 ==> Inv(c, r) && r.battery <= s.battery
    ensures r.isHolding != s.isHolding ==> f.pickupKey && f.cameraIndex == 0
    ensures c.hasPickup && c.hasCameraMover && c.hasLight && !s.monsterActive ==>
      var held := HandlePickup(c, s, f);
      r.battery == (if held.isHolding && LitAfterKey(held, f)
                    then Battery.Drain(s.battery, c.drainRatePerSecond * f.dt)
                    else s.battery)
    ensures c.hasPickup && c.hasCameraMover && !s.monsterActive ==>
      && r.cycleTimer == (if s.cycleTimer - f.dt <= 0.0 then c.cycleInterval else s.cycleTimer - f.dt)
      && (r.monsterActive <==> s.cycleTimer - f.dt <= 0.0 && c.hasMonster && f.roll <= c.spawnChance)
    ensures c.hasPickup && c.hasCameraMover && s.monsterActive && s.activeTimer - f.dt > 0.0 ==>
      r.monsterActive && r.activeTimer == s.activeTimer - f.dt
    ensures c.hasPickup && c.hasCameraMover && s.monsterActive && s.activeTimer - f.dt <= 0.0 ==>
      !r.monsterActive
  {
    if !c.hasPickup || !c.hasCameraMover then s
    else HandleMonster(c, HandleFlashlight(c, HandlePickup(c, s, f), f), f)
  }

  function Run(c: Config, s: State, frames: seq<Frame>): State
    decreases |frames|
  {
    if |frames| == 0 then s else Run(c, Update(c, s, frames[0]), frames[1..])
  }

  /** From start-up on, over any frames of non-negative duration, the invariant holds and
      the charge never rises above where it started. */
  lemma {:induction false} RunKeepsInv(c: Config, s: State, frames: seq<Frame>)
    requires ValidConfig(c) && Inv(c, s)
    requires forall i :: 0 <= i < |frames| ==> frames[i].dt >= 0.0
    ensures Inv(c, Run(c, s, frames)) && Run(c, s, frames).battery <= s.battery
    decreases |frames|
  {
    if |frames| > 0 {
      RunKeepsInv(c, Update(c, s, frames[0]), frames[1..]);
    }
  }

  /** Frames in which the light key is never pressed leave a light that is off switched
      off, and then nothing ever drains the charge, whatever the monster does. */
  lemma {:induction false} DarkRunKeepsCharge(c: Config, s: State, frames: seq<Frame>)
    requires !s.lightEnabled
    requires forall i :: 0 <= i < |frames| ==> !frames[i].toggleKey
    ensures !Run(c, s, frames).lightEnabled && Run(c, s, frames).battery == s.battery
    decreases |frames|
  {
    if |frames| > 0 {
      var rest := frames[1..];
      assert forall i :: 0 <= i < |rest| ==> !rest[i].toggleKey by {
        forall i | 0 <= i < |rest| ensures !rest[i].toggleKey {
          assert rest[i] == frames[i + 1];
        }
      }
      DarkRunKeepsCharge(c, Update(c, s, frames[0]), rest);
    }
  }

  /** The seconds covered by some frames. */
  function Elapsed(frames: seq<Frame>): real
    decreases |frames|
  {
    if |frames| == 0 then 0.0 else frames[0].dt + Elapsed(frames[1..])
  }

  /** Every frame has a non-negative duration. */
  predicate ForwardInTime(frames: seq<Frame>)
  {
    forall i :: 0 <= i < |frames| ==> frames[i].dt >= 0.0
  }

  lemma ForwardInTimeTail(frames: seq<Frame>)
    requires |frames| > 0 && ForwardInTime(frames)
    ensures ForwardInTime(frames[1..])
  {
    forall i | 0 <= i < |frames[1..]| ensures frames[1..][i].dt >= 0.0 {
      assert frames[1..][i] == frames[i + 1];
    }
  }

  lemma {:induction false} ElapsedNonNegative(frames: seq<Frame>)
    requires ForwardInTime(frames)
    ensures Elapsed(frames) >= 0.0
    decreases |frames|
  {
    if |frames| > 0 {
      ForwardInTimeTail(frames);
      ElapsedNonNegative(frames[1..]);
    }
  }

  /** Running some frames and then one more is running them all. */
  lemma {:induction false} RunSnoc(c: Config, s: State, frames: seq<Frame>, last: Frame)
    ensures Run(c, s, frames + [last]) == Update(c, Run(c, s, frames), last)
    decreases |frames|
  {
    if |frames| == 0 {
      assert frames + [last] == [last];
    } else {
      assert (frames + [last])[1..] == frames[1..] + [last];
      RunSnoc(c, Update(c, s, frames[0]), frames[1..], last);
    }
  }

  /** A present monster stays while less time than its appear timer has passed, and its
      timer has fallen by exactly the time passed. */
  lemma {:induction false} MonsterStaysWhileTimeLeft(c: Config, s: State, frames: seq<Frame>)
    requires c.hasPickup && c.hasCameraMover && s.monsterActive
    requires ForwardInTime(frames) && Elapsed(frames) < s.activeTimer
    ensures Run(c, s, frames).monsterActive
    ensures Run(c, s, frames).activeTimer == s.activeTimer - Elapsed(frames)
    decreases |frames|
  {
    if |frames| > 0 {
      ForwardInTimeTail(frames);
      ElapsedNonNegative(frames[1..]);
      MonsterStaysWhileTimeLeft(c, Update(c, s, frames[0]), frames[1..]);
    }
  }

  /** A present monster is gone in the frame in which the time passed reaches its appear
      timer: the frames before leave it present, the frame that crosses the mark removes it. */
  lemma MonsterLeavesOnTime(c: Config, s: State, frames: seq<Frame>, last: Frame)
    requires c.hasPickup && c.hasCameraMover && s.monsterActive
    requires ForwardInTime(frames) && Elapsed(frames) < s.activeTimer
    requires Elapsed(frames) + last.dt >= s.activeTimer
    ensures Run(c, s, frames).monsterActive
    ensures !Run(c, s, frames + [last]).monsterActive
  {
    MonsterStaysWhileTimeLeft(c, s, frames);
    RunSnoc(c, s, frames, last);
  }
}
